=== FILE: README.md ===
# Neuron-grid automaton: a Dafny model

The model covers the simulation core of `background.js`, a WebGPU background
that runs a square grid of spiking "neurons".

Each cell holds three things:

- a membrane `state`;
- a decaying `fired` afterglow;
- eight outgoing connection weights, in compass order.

Every frame a compute shader advances the grid one tick. Each cell decays or
fires on its own. A cell sitting exactly at the firing sentinel 1 then adds its
outgoing weights to the states of its in-grid neighbours. It also trains one
weight of each of those neighbours towards the ceiling 0.1 (Hebbian learning).

The host keeps two generation buffers, A and B, and alternates their roles
with a step counter. After each compute pass it copies one buffer into a
read-back buffer. `activate(x, y, value)` uses that read-back copy to edit one
cell's state.

The model has five modules:

- `Options` (`options.dfy`): the optional value used for absent settings,
  off-grid neighbours and refused read-backs.
- `Grid` (`grid.dfy`): the grid side and buffer size, and the shader's wrapping
  `cellIndex` in `u32` arithmetic. It also holds the host's `positionToIndex`
  and the 8x8 workgroup dispatch.
- `Neurons` (`neurons.dfy`): the neuron record and the intrinsic
  `updateNeuron` step. It also holds the ten-float record layout and the
  packing of a grid into a flat buffer.
- `Propagation` (`propagation.dfy`): the neighbour directions of
  `getConnection`, the bounds-checked neighbour traversal, and the Hebbian
  rule. It gives one tick of `computeMain` in two forms. `ReferenceTick` is
  the per-cell reference ("pull"). The method `Tick` performs the same writes
  in a fixed invocation order ("push"). The two are proved
  equal.
- `Host` (`host.dfy`): bind groups and buffer parity, buffer initialisation,
  `update`, `readNetwork` and `activate`, including the read-back buffer
  that `activate` can leave mapped.

Floats are modelled as reals. The GPU's unordered `+=` writes are modelled
race-free: every cell's own step happens first, then every firing contribution
is added.

Some behaviours of the code are easy to misread:

- **Initial state.** The comment at `background.js:300` says each cell is set
  to a random state, but the loop below it (`background.js:302-306`) leaves
  every `state` (and `fired`) at 0. Only the weight slots get random values.
  The model follows the loop.
- **Range after an update.** The intrinsic step keeps states in [-1, 1]
  (`Neurons.UpdateNeuronPreservesRange`), but not in `{-1} ∪ (0, 1]`: a
  negative state below the threshold just decays, for example -0.5 becomes
  -0.488. Propagation can then take a state outside [-1, 1]: a neighbour's
  `+=` lands on top of the intrinsic step, so on any square grid of side 2 or
  more, a cell jumping to the sentinel 1 while a firing neighbour adds 0.1
  ends the tick at 1.1 (`Propagation.TickCanLeaveRange`).
- **Trained slot.** The trained slot `(j + 3) % 8` is not the direction
  pointing back at the firing cell. That direction is `(j + 4) % 8`.
  `Propagation.BackSlotIsNotOpposite` proves this. The model keeps the
  code's slot.
- **Read-back lag.** `readNetwork` returns the generation the last update
  consumed, not the one on screen (`Host.ReadNetworkLags`).
- **Initial weights.** Initial weights lie in [-0.9, 0.9). They can exceed the
  ceiling 0.1, so the weight-ceiling properties assume weights already at or
  below 0.1.

## Model

| member | source | states |
|---|---|---|
| Grid.GridWidth | background.js:170-171 | The side is the requested width clamped to 512: at most both, and equal to one of them. |
| Grid.GridHeight | background.js:171 | The grid height is the clamped width, so the grid is square; `BufferSize` counts its W·H cells. |
| Grid.BufferSize | background.js:175 | A generation buffer holds exactly one ten-float record per cell: its length is a multiple of 10 whose quotient by 10 is W·H, and it is at most 512·512·10. |
| Grid.CellIndex | background.js:13-15 | The wrapping `u32` index is always below W·H, so the 32-bit modulus never bites. For in-grid coordinates it is the row-major index y·W + x. |
| Grid.CellIndexCoordinates | background.js:13-15 | The index's column is x mod W and its row is y mod H. |
| Grid.CellIndexInverse | background.js:13-15 | Column `i % W` and row `i / W` of any index below W·H lie in the grid and map back to `i`. |
| Grid.CellIndexWraps | background.js:14 | Indexing is toroidal: shifting x by W or y by H gives the same cell. |
| Grid.PositionToIndex | background.js:375-377 | The host offset (x + y·W)·10 is a whole record offset, a multiple of 10, for any coordinates, in the grid or not. |
| Grid.PositionToIndexInGrid | background.js:375-377 | For an in-grid cell, the host's float offset is 10 times the shader's cell index, and the ten-float record fits inside the buffer. |
| Grid.PositionToIndexRowCarry | background.js:375-377 | The host offset does not wrap: x + W on row y addresses column x of row y + 1. |
| Grid.DispatchExtent | background.js:394-395 | ceil(W/8) workgroups of 8 cover at least W invocations per axis and fewer than W + 8. |
| Grid.DispatchCoversGrid | background.js:394-395 | When W is a multiple of 8 the invocations are exactly the grid cells, each reaching its own row-major index. |
| Grid.DispatchAliasesOtherwise | background.js:394-395 | Otherwise extra invocations exist, and through the wrapping index the one at (W, 0) writes cell 0, which already has its own invocation. |
| Neurons.UpdateNeuron | background.js:49-74 | Three outcomes: a state of 1 or more becomes -1 with afterglow 1; a state in (0.2, 1) becomes 1 with afterglow 1; otherwise state decays by 0.976 and afterglow by 0.9. Weights are copied unchanged. |
| Neurons.UpdateNeuronPreservesRange | background.js:49-66 | A neuron with state in [-1, 1] and afterglow in [0, 1] stays in those ranges. |
| Neurons.IsolatedDecay | background.js:49-66 | A neuron at or below the threshold with no input decays geometrically: after n ticks its state is state·0.976ⁿ and its afterglow fired·0.9ⁿ. It never fires, and its weights do not change. |
| Neurons.FiringCycle | background.js:56-65 | Above the threshold an isolated neuron goes to the sentinel 1, then to the refractory -1 (afterglow still 1), then starts decaying (-0.976, 0.9). |
| Neurons.Encode | background.js:2-6 | A neuron's record is ten floats: state, fired, then the eight weights in order. |
| Neurons.RecordRoundTrip | background.js:2-6 | Decoding an encoded record gives the neuron back, and encoding a decoded record gives the floats back. |
| Neurons.PackRoundTrip | background.js:2-11 | Packing a grid and unpacking the buffer round-trips in both directions. |
| Neurons.UnpackCell | background.js:2-6 | Cell i reads its state from float 10i, its afterglow from 10i+1, and weight k from 10i+2+k. |
| Propagation.DefaultRateKeepsCeiling | background.js:256 | With no learning rate given, the rate used is 0.6, which meets the [0, 1] premise, so a whole tick keeps weights at or below 0.1. |
| Propagation.CallerRateAboveOneOvershoots | background.js:87-93 | Every caller's rate is used unchanged, and above 1 the ceiling fails: with rate 2, a source with afterglow 1 takes a weight of 0 to 0.2. |
| Propagation.GetConnection | background.js:35-47 | Directions 0-7 give a non-zero offset with components in {-1, 0, 1}; any other n gives (0, 0). |
| Propagation.ConnectionsAreCompass | background.js:35-47 | The eight offsets are pairwise distinct and cover every non-zero neighbour offset. |
| Propagation.OppositeNegates | background.js:35-47 | Direction (j + 4) % 8 is the exact negation of direction j. |
| Propagation.BackSlot | background.js:83 | The weight slot trained in the neighbour reached through direction j, kept as the literal `(j + 3) % 8`; BackSlotBijective and BackSlotIsNotOpposite state what it is. |
| Propagation.BackSlotIsNotOpposite | background.js:83 | The trained slot (j + 3) % 8 never points back at the firing cell. |
| Propagation.BackSlotBijective | background.js:83 | j ↦ (j + 3) % 8 is a permutation of the eight slots, with inverse w ↦ (w + 5) % 8. |
| Propagation.InGrid | background.js:80 | The bounds test on the unwrapped neighbour coordinate: 0 ≤ x < W and 0 ≤ y < H, with no wrap-around; NeighbourCountByPosition states its effect. |
| Propagation.Target | background.js:78-82 | The neighbour cell s writes through direction j, when it is inside the grid, is a valid cell index. |
| Propagation.Source | background.js:78-82 | The cell that writes t through direction j, when it is inside the grid, is a valid cell index. |
| Propagation.TargetSourceDual | background.js:78-82 | Cell s writes cell t through direction j exactly when t, stepped back along j, lands on s inside the grid. |
| Propagation.TargetsDistinct | background.js:77-82 | Two directions of one cell that reach the same in-grid neighbour are the same direction. |
| Propagation.HebbianWritesInjective | background.js:82-93 | Each (neighbour, weight slot) receives at most one Hebbian delta per tick: (source, direction) is determined by it. |
| Propagation.NeighbourCountByPosition | background.js:77-80 | The bounds test leaves 8 neighbours to an interior cell, 5 to a border cell and 3 to a corner. |
| Propagation.Drive | background.js:93 | The training drive `fired·(tmax − tmin) + tmin` with tmax 1 and tmin −0.2; its range is stated by DriveBounds. |
| Propagation.HebbianDelta | background.js:93 | The `+=` applied to a weight: drive times the gap to the ceiling 0.1 times the learning rate; its effect is stated by HebbianCeiling. |
| Propagation.DriveBounds | background.js:88-93 | The training drive `fired·1.2 − 0.2` lies in [−0.2, 1] for an afterglow in [0, 1]. |
| Propagation.Fires | background.js:81 | A cell propagates only when its previous state is exactly the sentinel 1; QuietTick states the effect of no cell firing. |
| Propagation.HebbianCeiling | background.js:87-93 | With afterglow and learning rate in [0, 1], one update never pushes a weight at or below 0.1 above 0.1. With a non-negative drive it never lowers the weight. |
| Propagation.HebbianRepeatGap | background.js:93 | Repeated training from one source shrinks the gap to the ceiling geometrically, by the factor 1 − drive·lr each time. |
| Propagation.HebbianRepeatBounded | background.js:87-93 | Any number of such updates keeps a weight at or below the ceiling. |
| Propagation.ReferenceTick | background.js:54-97 | One tick cell by cell: each cell's intrinsic step plus every write from its firing in-grid neighbours. It keeps the grid size, and `Tick` shows it equals the invocation-order tick. |
| Propagation.TickFiredIsIntrinsic | background.js:54-97 | Propagation never writes the afterglow: after a tick it is the intrinsic one, and it stays in [0, 1]. |
| Propagation.TickCanLeaveRange | background.js:54-84 | On any square grid of side 2 or more, a tick can take a state outside [−1, 1] from a grid whose cells are all in range with weights at or below 0.1: cell 1, jumping from 0.5 to 1 while its firing west neighbour adds weight 0.1, ends at 1.1. |
| Propagation.QuietTick | background.js:81 | If no cell is exactly at the firing sentinel 1, every cell just takes its intrinsic step. |
| Propagation.TickKeepsWeightCeiling | background.js:87-93 | With afterglows and learning rate in [0, 1], weights at or below 0.1 stay there across a whole tick. |
| Propagation.Tick | background.js:69-97 | Doing each invocation's own step and connection copy, then each in-grid firing write source by source and direction by direction, yields exactly the per-cell reference tick. |
| Propagation.Push | background.js:78-93 | One (source, direction) write: only the in-grid target of a firing source changes, and the grid size is kept. |
| Propagation.PushAdvances | background.js:78-93 | Each (source, direction) write step keeps every cell equal to the reference cell with exactly the writes before it applied. |
| Host.BindGroupOf | background.js:312-341 | Each bind group reads one of the two buffers and writes one of them. |
| Host.BindGroupsSwapRoles | background.js:312-341 | Group k reads buffer k and writes buffer 1 − k, the buffer group 1 − k reads. |
| Host.Random | background.js:178 | A draw of `Math.random()` in [0, 1) becomes a value in [−1, 1). |
| Host.InitialBuffer | background.js:302-306 | Positions 0 and 1 of every record stay 0. Every other position gets (2u − 1)·0.9 for the draw u of `Math.random()` at that position. |
| Host.InitialGrid | background.js:302-306 | After initialisation every neuron has state 0 and afterglow 0, with every weight in [−0.9, 0.9). |
| Host.Create | background.js:152-309 | A fresh background has a clamped square grid, step 0 and an unmapped read-back buffer. Buffer A is initialised; buffer B and the read-back buffer are zero. |
| Host.Update | background.js:386-426 | An update advances the step by one and keeps the width, the learning rate, the buffer sizes and whether the read-back buffer is mapped. |
| Host.UpdateRoles | background.js:393-420 | The update at step s reads buffer s % 2 and writes its tick into the other buffer, which render, the next update and `activate` then use. The read-back copy is the generation consumed. |
| Host.UpdatesAlternate | background.js:393-420 | After n updates the step has grown by n, and the render pass, the next tick and `activate` all use buffer (step + n) % 2: the roles flip on every update. |
| Host.RolesFollowStep | background.js:393-420 | The render pass, the next compute pass and `activate` all use buffer `step % 2`. |
| Host.TickInput | background.js:393 | The compute pass reads the input buffer of bind group `step % 2`; RolesFollowStep states which buffer that is. |
| Host.RenderBuffer | background.js:420 | The render pass reads the input buffer of bind group `step % 2` after the increment; RolesFollowStep states which buffer that is. |
| Host.ActivateBuffer | background.js:358 | `activate` writes buffer `step % 2`; RolesFollowStep states that the next compute pass reads it. |
| Host.UpdateByTick | background.js:386-406 | On an unmapped host the update computed with the invocation-order tick writes the reference tick into the buffer rendered next, and it is always the reference update. |
| Host.ReadNetwork | background.js:362-373 | `readNetwork` returns the read-back buffer, and is refused once that buffer is left mapped; ReadNetworkLags and RefusedActivateFreezes state both cases. |
| Host.ReadNetworkLags | background.js:362-404 | On an unmapped host `readNetwork` returns the generation the last update consumed, not the one it produced. |
| Host.RecordInBuffer | background.js:352 | The range read accepts the record when its offset is non-negative and its ten floats end inside the buffer. |
| Host.Activate | background.js:343-358 | On an unmapped host with the record inside the buffer, `activate` edits only buffer `step % 2`. A record outside the buffer leaves the read-back buffer mapped and changes nothing else. An already mapped host is left as it is. |
| Host.ActivateFeedsNextTick | background.js:343-358 | For an in-grid cell the next tick sees `value` as the cell's state, with the afterglow and weights of the read-back copy. Every other cell is unchanged. |
| Host.ActivateOnFreshHostClearsWeights | background.js:343-358 | Before the first update the read-back buffer is zero, so `activate` zeroes the cell's afterglow and weights. |
| Host.ActivateRevertsAfterUpdate | background.js:343-358 | After an update, `activate` restores the cell's afterglow from the generation before the update. Example: a cell at state 0.25 with afterglow 0 fires to afterglow 1, and `activate` puts 0 back. |
| Host.RecordsOutsideTheGrid | background.js:345-352 | The cell one past the end of the last row, and any cell left of column 0 on row 0, have records outside the buffer. |
| Host.MappedUpdatesIdle | background.js:386-426 | With the read-back buffer left mapped, n updates add n to the step and change nothing else. |
| Host.RefusedActivateFreezes | background.js:343-426 | After an `activate` outside the buffer, any number of updates leave the buffers as they were while the step advances, and every later `readNetwork` and `activate` is refused. |
| Host.ActivateInPlace | background.js:343-358 | The corrected edit changes only buffer `step % 2`, and refuses a record outside the buffer without touching anything. |
| Host.ActivateInPlaceOnlySetsState | background.js:343-358 | The corrected edit sets the cell's state to `value` and leaves its afterglow, its weights and every other cell of the next tick's input as they were. |
| Host.InPlaceEditKeepsTicking | background.js:343-358 | Whatever the coordinates, the corrected edit keeps the read-back buffer unmapped, and the next update computes the tick of the edited buffer. |

## Left out

- WebGPU setup is not modelled: adapter and device requests, canvas configuration, pipeline and layout creation, the vertex buffer and the uniform upload. It is plumbing with no logic.
- The render shader (`vertexMain`, `fragmentMain`) is not modelled: it only maps a neuron to a colour.
- `mapAsync` is treated as synchronous: awaiting, and interleaving an `activate` or `readNetwork` with an in-flight GPU submission, are not modelled. Each update is one atomic transition and each `activate` one synchronous write. What is modelled is the mapped state that outlives a call: the read-back buffer left mapped when the range read throws.
- Updates during a pending map are not modelled. `mapAsync` in `activate` or `readNetwork` makes the read-back buffer unavailable at once. Every `update` issued before the map resolves fails validation at the submit (line 426), while `step++` (line 406) still runs. So frames are dropped, and the parity of `step`, and with it the buffer `activate` writes at line 358, can flip. The first Findings row assumes no update runs while `activate`'s map is pending.
- GPU data races are not modelled. The shader's neighbour `+=` writes are unsynchronised, and a neighbour's write can land before the target's own step overwrites it. The model takes the race-free reading: own step first, then every write added. It does not model lost updates.
- f32 rounding is not modelled: floats are reals. The test `state == 1` is exact in the model, as it is for the stored constant 1.
- `Math.random()` is a parameter: one draw per buffer position. Draws at positions 0 and 1 of a record are supplied but unused.
- Host.Create: requires the side to be a positive multiple of 8, which the source only states as a comment. Other widths, where the dispatch aliases, are covered by `Grid.DispatchAliasesOtherwise` only.
- Host.Update: uses the sequential reference tick, so it does not state the outcome of the GPU races above.
- The mouse handler (`mousedown` → `activate(…, 1)`), the pixel-to-cell conversion and `UPDATE_INTERVAL` are host scheduling with no model content.
- Commented-out code (the old `getConnection` with the 4294967295 sentinel, the `rThreshold` decay, debug writes) is not part of the program.
- Propagation.HebbianCeiling: assumes a learning rate in [0, 1]. The default 0.6 meets it (`Propagation.DefaultRateKeepsCeiling`); a caller's rate above 1 overshoots the ceiling (`Propagation.CallerRateAboveOneOvershoots`).

## Findings

| source | as written | input that shows it | evidently intended | confidence | as-written member | corrected member |
|---|---|---|---|---|---|---|
| background.js:343-358 | `activate` takes the cell's ten floats from the read-back buffer and sets the state. That buffer is a copy of the last update's input, while the write goes to the update's output. The cell's afterglow and weights revert to the previous generation, and before the first update they are zeroed. | After one update, a cell that was at state 0.25 with afterglow 0 has afterglow 1; `activate(x, y, 1)` writes afterglow 0 back. | Set the cell's state in the buffer the next tick reads and leave its afterglow and weights alone. | medium; not executed | Host.ActivateRevertsAfterUpdate | Host.ActivateInPlaceOnlySetsState |
| background.js:343-358 | `activate` does not check the coordinates. For a record outside the read-back buffer, `getMappedRange` (line 352) throws before `unmap` (line 354) runs, so the buffer stays mapped. From then on every update's copy into it (lines 398-404) makes the submission (line 426) fail validation, so nothing is computed or drawn, while `step++` (line 406) still runs. Every later `mapAsync` in `activate` or `readNetwork` is rejected. | `activate(W, W - 1, 1)`: the offset is W·W·10, one record past the end of the buffer. | Refuse an out-of-range record without side effects, and keep the simulation running. | medium; not executed | Host.RefusedActivateFreezes | Host.InPlaceEditKeepsTicking |

=== FILE: grid.dfy ===
/** Grid geometry of the neuron automaton.

    The grid is square, at most 512 cells wide, and stored row-major. The
    compute shader addresses a cell with a toroidal (wrapping) index in 32-bit
    unsigned arithmetic; the host addresses the same cell by the float offset
    of its 10-float record. The shader is dispatched in 8x8 workgroups, so one
    invocation exists per cell exactly when the width is a multiple of 8. */
module Grid {

  /** Upper bound on the grid side (background.js:170). */
  const MaxGridWidth: nat := 512
  /** Workgroup edge of the compute shader (background.js:68, 174). */
  const WorkgroupSize: nat := 8
  /** Floats per cell record: state, fired and eight connection weights. */
  const RecordStride: nat := 10
  /** Modulus of WGSL `u32` arithmetic. */
  const U32Modulus: nat := 0x1_0000_0000

  /** A usable grid side. */
  type Side = n: nat | 0 < n <= MaxGridWidth witness 1

  /** Side chosen by the host for a requested width: clamped to 512. */
  function GridWidth(requested: nat): (w: nat)
    ensures w <= MaxGridWidth && w <= requested
    ensures w == requested || w == MaxGridWidth
  {
    if requested < MaxGridWidth then requested else MaxGridWidth
  }

  /** The grid is forced square: its height is its width. */
  function GridHeight(requested: nat): nat
  {
    GridWidth(requested)
  }

  /** Number of floats in one generation buffer: one ten-float record per
      cell of the grid. */
  function BufferSize(requested: nat): (n: nat)
    ensures n % RecordStride == 0
    ensures n / RecordStride == GridWidth(requested) * GridHeight(requested)
    ensures n <= MaxGridWidth * MaxGridWidth * RecordStride
  {
    var cells := GridWidth(requested) * GridHeight(requested);
    ProductBound(GridWidth(requested), GridHeight(requested), MaxGridWidth);
    DivModUnique(cells * RecordStride, RecordStride, cells, 0);
    cells * RecordStride
  }

  lemma ProductBound(a: nat, b: nat, m: nat)
    requires a <= m && b <= m
    ensures a * b <= m * m
  {
    assert a * b <= m * b;
    assert m * b <= m * m;
  }

  lemma MulAtLeast(d: int, W: int)
    requires d >= 1 && W > 0
    ensures d * W >= W
  {
  }

  /** Euclidean division is determined by quotient and remainder. */
  lemma DivModUnique(n: nat, W: nat, q: nat, r: nat)
    requires 0 < W && r < W && n == q * W + r
    ensures n / W == q && n % W == r
  {
    var q', r' := n / W, n % W;
    assert (q - q') * W == r' - r;
    if q > q' {
      MulAtLeast(q - q', W);
    } else if q < q' {
      MulAtLeast(q' - q, W);
    }
  }

  lemma SmallMod(n: nat, m: nat)
    requires n < m
    ensures n % m == n
  {
    DivModUnique(n, m, 0, n);
  }

  /** Row-major placement: a row index and a column index below the width
      determine, and are determined by, one linear index. */
  lemma RowMajor(W: nat, H: nat, row: nat, col: nat)
    requires 0 < W && col < W && row < H
    ensures row * W + col < W * H
    ensures (row * W + col) % W == col && (row * W + col) / W == row
  {
    MulAtLeast(H - row, W);
    assert (H - row) * W == H * W - row * W;
    DivModUnique(row * W + col, W, row, col);
  }

  /** The shader's `cellIndex`: both coordinates are reduced modulo the grid
      size, in `u32` arithmetic. The modulus never bites, because the result
      is below W * H <= 512 * 512. */
  function CellIndex(W: Side, H: Side, x: nat, y: nat): (i: nat)
    requires x < U32Modulus && y < U32Modulus
    ensures i < W * H
    ensures x < W && y < H ==> i == y * W + x
  {
    var row, col := y % H, x % W;
    RowMajor(W, H, row, col);
    ProductBound(W, H, MaxGridWidth);
    assert row * W + col < U32Modulus;
    SmallMod(row * W, U32Modulus);
    SmallMod(row * W + col, U32Modulus);
    assert x < W ==> col == x by { if x < W { SmallMod(x, W); } }
    assert y < H ==> row == y by { if y < H { SmallMod(y, H); } }
    (row * W % U32Modulus + col) % U32Modulus
  }

  /** The index keeps the reduced coordinates: column x mod W, row y mod H. */
  lemma CellIndexCoordinates(W: Side, H: Side, x: nat, y: nat)
    requires x < U32Modulus && y < U32Modulus
    ensures CellIndex(W, H, x, y) % W == x % W
    ensures CellIndex(W, H, x, y) / W == y % H
  {
    RowMajor(W, H, y % H, x % W);
    ProductBound(W, H, MaxGridWidth);
    SmallMod((y % H) * W, U32Modulus);
    SmallMod((y % H) * W + x % W, U32Modulus);
  }

  /** Column and row of a linear index: the inverse of `CellIndex` on the grid. */
  function ColumnOf(W: Side, i: nat): nat { i % W }
  function RowOf(W: Side, i: nat): nat { i / W }

  lemma CellIndexInverse(W: Side, H: Side, i: nat)
    requires i < W * H
    ensures RowOf(W, i) < H
    ensures CellIndex(W, H, ColumnOf(W, i), RowOf(W, i)) == i
  {
    if i / W >= H {
      assert i >= (i / W) * W >= H * W;
    }
  }

  /** Indexing is toroidal: shifting a coordinate by a whole grid side lands
      on the same cell. */
  lemma CellIndexWraps(W: Side, H: Side, x: nat, y: nat)
    requires x + W < U32Modulus && y + H < U32Modulus
    ensures CellIndex(W, H, x + W, y) == CellIndex(W, H, x, y)
    ensures CellIndex(W, H, x, y + H) == CellIndex(W, H, x, y)
  {
    CellIndexWrapsColumn(W, H, x, y);
    CellIndexWrapsRow(W, H, x, y);
  }

  lemma CellIndexWrapsColumn(W: Side, H: Side, x: nat, y: nat)
    requires x + W < U32Modulus && y < U32Modulus
    ensures CellIndex(W, H, x + W, y) == CellIndex(W, H, x, y)
  {
    ShiftByModulus(x, W);
    CellIndexCoordinates(W, H, x, y);
    CellIndexCoordinates(W, H, x + W, y);
    var i := CellIndex(W, H, x, y);
    DivModUnique(i, W, i / W, i % W);
    DivModUnique(CellIndex(W, H, x + W, y), W, i / W, i % W);
  }

  lemma CellIndexWrapsRow(W: Side, H: Side, x: nat, y: nat)
    requires x < U32Modulus && y + H < U32Modulus
    ensures CellIndex(W, H, x, y + H) == CellIndex(W, H, x, y)
  {
    ShiftByModulus(y, H);
    CellIndexCoordinates(W, H, x, y);
    CellIndexCoordinates(W, H, x, y + H);
    var i := CellIndex(W, H, x, y);
    DivModUnique(i, W, i / W, i % W);
    DivModUnique(CellIndex(W, H, x, y + H), W, i / W, i % W);
  }

  lemma ShiftByModulus(x: nat, m: nat)
    requires 0 < m
    ensures (x + m) % m == x % m
  {
    DivModUnique(x + m, m, x / m + 1, x % m);
  }

  /** The host's `positionToIndex`: offset of a cell's record in a buffer. */
  function PositionToIndex(W: nat, x: int, y: int): (offset: int)
    ensures offset % RecordStride == 0
  {
    (x + y * W) * RecordStride
  }

  /** For an in-grid cell the record fits in the buffer and sits at ten
      times the shader's index of that cell. */
  lemma PositionToIndexInGrid(W: Side, H: Side, x: nat, y: nat)
    requires x < W && y < H
    ensures PositionToIndex(W, x, y) == RecordStride * CellIndex(W, H, x, y)
    ensures 0 <= PositionToIndex(W, x, y)
    ensures PositionToIndex(W, x, y) + RecordStride <= W * H * RecordStride
  {
    var i := CellIndex(W, H, x, y);
    assert i + 1 <= W * H;
  }

  /** The host offset does not wrap: a column past the right edge addresses
      the first cells of the next row. */
  lemma PositionToIndexRowCarry(W: nat, x: int, y: int)
    ensures PositionToIndex(W, x + W, y) == PositionToIndex(W, x, y + 1)
  {
  }

  /** Invocations per axis: `ceil(W / 8)` workgroups of 8. */
  function DispatchExtent(W: nat): (e: nat)
    ensures W <= e < W + WorkgroupSize
    ensures e % WorkgroupSize == 0
  {
    (W + WorkgroupSize - 1) / WorkgroupSize * WorkgroupSize
  }

  /** With a width divisible by 8 the invocations are exactly the grid cells,
      each reaching its own index. */
  lemma DispatchCoversGrid(W: Side, x: nat, y: nat)
    requires W % WorkgroupSize == 0
    requires x < DispatchExtent(W) && y < DispatchExtent(W)
    ensures DispatchExtent(W) == W
    ensures CellIndex(W, W, x, y) == y * W + x
  {
    DivModUnique(W + WorkgroupSize - 1, WorkgroupSize, W / WorkgroupSize, WorkgroupSize - 1);
    assert W == W / WorkgroupSize * WorkgroupSize;
  }

  /** Otherwise some invocation lies off the grid and aliases, through the
      wrapping index, onto a cell that already has its own invocation. */
  lemma DispatchAliasesOtherwise(W: Side)
    requires W % WorkgroupSize != 0
    ensures W < DispatchExtent(W)
    ensures CellIndex(W, W, W, 0) == CellIndex(W, W, 0, 0) == 0
  {
    CellIndexWraps(W, W, 0, 0);
  }
}

=== FILE: host.dfy ===
/** Host-side bookkeeping: the two generation buffers, the step counter that
    picks their roles, buffer initialisation, the per-frame update and the
    `activate` point edit.

    Buffer `k` is bound for reading and buffer `1 - k` for writing by bind
    group `k`. Each update runs the compute pass with bind group `step % 2`,
    copies that group's INPUT buffer into the read-back buffer, increments the
    step, and renders with bind group `step % 2` of the new step. GPU queue
    ordering is taken as sequential: an update is one atomic transition, and
    `activate` is a synchronous write.

    The read-back buffer can be left mapped: `activate` maps it, and when the
    requested record lies outside it the range read throws before the buffer
    is unmapped. A submission that copies into a mapped buffer fails
    validation, so from then on no update computes anything, while the step
    counter, kept on the host, still advances. */
module Host {

  import opened Options
  import opened Grid
  import opened Neurons
  import opened Propagation

  /** The buffers one bind group binds for reading and for writing. */
  datatype BindGroup = BindGroup(input: nat, output: nat)

  /** The two bind groups of the pipeline, as a table. */
  function BindGroupOf(k: nat): (g: BindGroup)
    requires k < 2
    ensures g.input < 2 && g.output < 2
  {
    if k == 0 then BindGroup(0, 1) else BindGroup(1, 0)
  }

  /** Bind group `k` reads buffer `k` and writes the other one, which is what
      the other bind group reads. */
  lemma BindGroupsSwapRoles(k: nat)
    requires k < 2
    ensures BindGroupOf(k).input == k
    ensures BindGroupOf(k).output == 1 - k
    ensures BindGroupOf(1 - k).input == BindGroupOf(k).output
    ensures BindGroupOf(1 - k).output == BindGroupOf(k).input
  {
  }

  /** State of one background instance. `storage` holds generation buffers A
      and B; `results` is the mappable read-back copy, and `mapped` records
      that it has been left mapped. */
  datatype Host = Host(width: Side, lr: real, step: nat, storage: seq<seq<real>>, results: seq<real>, mapped: bool)

  /** Floats in one generation buffer: the buffer size of the host's side. */
  function Floats(h: Host): (n: nat)
    ensures n % RecordStride == 0 && n / RecordStride == h.width * h.width
  {
    BufferSize(h.width)
  }

  predicate Valid(h: Host)
  {
    && h.width % WorkgroupSize == 0
    && |h.storage| == 2
    && |h.storage[0]| == Floats(h)
    && |h.storage[1]| == Floats(h)
    && |h.results| == Floats(h)
  }

  /** Buffer read by the render pass. */
  function RenderBuffer(h: Host): nat
  {
    BindGroupOf(h.step % 2).input
  }

  /** Buffer the next compute pass reads. */
  function TickInput(h: Host): nat
  {
    BindGroupOf(h.step % 2).input
  }

  /** Buffer `activate` writes into. */
  function ActivateBuffer(h: Host): nat
  {
    h.step % 2
  }

  /** The host's `random()`: a draw `u` of `Math.random()` in [0, 1),
      stretched to [-1, 1). */
  function Random(u: real): (r: real)
    ensures 0.0 <= u < 1.0 ==> -1.0 <= r < 1.0
  {
    u * 2.0 - 1.0
  }

  const InitialWeightScale: real := 0.9

  /** The initialisation loop over a zero-filled array: every float whose
      position within its record is 2 or more gets `random() * 0.9`; the
      state and fired slots stay 0. `draws[i]` is the value `Math.random()`
      returns when position `i` is filled. */
  method InitialBuffer(n: nat, draws: seq<real>) returns (buf: seq<real>)
    requires |draws| == n
    ensures |buf| == n
    ensures forall i :: 0 <= i < n && i % RecordStride <= 1 ==> buf[i] == 0.0
    ensures forall i :: 0 <= i < n && i % RecordStride > 1 ==> buf[i] == Random(draws[i]) * InitialWeightScale
  {
    buf := seq(n, i => 0.0);
    var i := 0;
    while i < n
      invariant i <= n && |buf| == n
      invariant forall k :: 0 <= k < i && k % RecordStride <= 1 ==> buf[k] == 0.0
      invariant forall k :: 0 <= k < i && k % RecordStride > 1 ==> buf[k] == Random(draws[k]) * InitialWeightScale
      invariant forall k :: i <= k < n ==> buf[k] == 0.0
    {
      if i % RecordStride > 1 {
        buf := buf[i := Random(draws[i]) * InitialWeightScale];
      }
      i := i + 1;
    }
  }

  /** After initialisation every neuron is at rest, state = fired = 0, with
      every connection weight in [-0.9, 0.9). */
  lemma InitialGrid(buf: seq<real>, draws: seq<real>, c: nat)
    requires |buf| == |draws| && |buf| % RecordStride == 0
    requires forall i :: 0 <= i < |buf| && i % RecordStride <= 1 ==> buf[i] == 0.0
    requires forall i :: 0 <= i < |buf| && i % RecordStride > 1 ==> buf[i] == Random(draws[i]) * InitialWeightScale
    requires forall i :: 0 <= i < |draws| ==> 0.0 <= draws[i] < 1.0
    requires c < |buf| / RecordStride
    ensures Unpack(buf)[c].state == 0.0 && Unpack(buf)[c].fired == 0.0
    ensures forall k :: 0 <= k < 8 ==> -InitialWeightScale <= Unpack(buf)[c].connections[k] < InitialWeightScale
  {
    UnpackCell(buf, c);
    assert (RecordStride * c) % RecordStride == 0;
    assert (RecordStride * c + 1) % RecordStride == 1;
    forall k | 0 <= k < 8
      ensures -InitialWeightScale <= Unpack(buf)[c].connections[k] < InitialWeightScale
    {
      var i := RecordStride * c + 2 + k;
      assert i % RecordStride == 2 + k;
      assert i < |buf|;
    }
  }

  /** `createBackground`: a square grid of side min(width, 512), buffer A
      initialised, buffer B and the read-back buffer zero-filled (as freshly
      created GPU buffers are) and unmapped, step 0. The width must be a
      multiple of the workgroup size for the dispatch to cover the grid
      exactly. */
  method Create(requested: nat, learningRate: Option<real>, draws: seq<real>) returns (h: Host)
    requires 0 < GridWidth(requested) && GridWidth(requested) % WorkgroupSize == 0
    requires |draws| == BufferSize(requested)
    ensures Valid(h) && h.step == 0 && !h.mapped
    ensures h.width == GridWidth(requested) && h.lr == LearningRate(learningRate)
    ensures Floats(h) == BufferSize(requested)
    ensures forall i :: 0 <= i < Floats(h) ==> h.storage[1][i] == 0.0 && h.results[i] == 0.0
    ensures forall i :: 0 <= i < Floats(h) && i % RecordStride <= 1 ==> h.storage[0][i] == 0.0
    ensures forall i :: 0 <= i < Floats(h) && i % RecordStride > 1 ==>
              h.storage[0][i] == Random(draws[i]) * InitialWeightScale
  {
    var w: Side := GridWidth(requested);
    var n := BufferSize(requested);
    var a := InitialBuffer(n, draws);
    var zeros := seq(n, i => 0.0);
    h := Host(w, LearningRate(learningRate), 0, [a, zeros], zeros, false);
  }

  /** One frame of `update`: the compute pass with bind group `step % 2`,
      the copy of that group's input buffer to the read-back buffer, and the
      step increment. With the read-back buffer left mapped the submission is
      rejected and only the increment happens. */
  function Update(h: Host): (r: Host)
    requires Valid(h)
    ensures Valid(r) && r.step == h.step + 1
    ensures r.width == h.width && r.lr == h.lr && r.mapped == h.mapped
  {
    if h.mapped then h.(step := h.step + 1)
    else
      var k := h.step % 2;
      var g := BindGroupOf(k);
      var prev := Unpack(h.storage[g.input]);
      var next := Pack(ReferenceTick(h.width, h.width, prev, h.lr));
      var storage := h.storage[g.output := next];
      h.(step := h.step + 1, storage := storage, results := storage[k])
  }

  /** Buffer roles alternate: the update at step s reads buffer s % 2 and
      writes buffer (s + 1) % 2, leaving the input untouched; the render pass,
      the next update and `activate` all then use the buffer just written;
      and the read-back copy is the generation the update consumed. */
  lemma UpdateRoles(h: Host)
    requires Valid(h) && !h.mapped
    ensures var s, r := h.step, Update(h);
            && TickInput(h) == s % 2
            && r.storage[(s + 1) % 2] == Pack(ReferenceTick(h.width, h.width, Unpack(h.storage[s % 2]), h.lr))
            && r.storage[s % 2] == h.storage[s % 2]
            && RenderBuffer(r) == (s + 1) % 2
            && TickInput(r) == (s + 1) % 2
            && ActivateBuffer(r) == (s + 1) % 2
            && r.results == h.storage[s % 2]
  {
    StepParity(h.step);
  }

  lemma StepParity(s: nat)
    ensures (s + 1) % 2 == 1 - s % 2
  {
  }

  /** `n` consecutive updates. */
  function Updates(h: Host, n: nat): (r: Host)
    requires Valid(h)
    ensures Valid(r) && r.width == h.width && r.lr == h.lr
  {
    if n == 0 then h else Update(Updates(h, n - 1))
  }

  /** Over any number of updates the step counts them and the buffer roles
      flip each time: after `n` updates the render pass, the next tick and
      `activate` all use buffer (step + n) % 2, which by `UpdateRoles` holds
      the tick of the buffer they used before. */
  lemma {:induction false} UpdatesAlternate(h: Host, n: nat)
    requires Valid(h)
    ensures Updates(h, n).step == h.step + n
    ensures RenderBuffer(Updates(h, n)) == (h.step + n) % 2
    ensures TickInput(Updates(h, n)) == ActivateBuffer(Updates(h, n)) == (h.step + n) % 2
  {
    if n > 0 {
      UpdatesAlternate(h, n - 1);
    }
    RolesFollowStep(Updates(h, n));
  }

  /** The render pass, the next tick and `activate` all use buffer
      `step % 2`. */
  lemma RolesFollowStep(h: Host)
    ensures RenderBuffer(h) == TickInput(h) == ActivateBuffer(h) == h.step % 2
  {
  }

  /** The update computes the race-free reference tick; `Tick` performs the
      invocations' writes in one fixed order. */
  method UpdateByTick(h: Host) returns (r: Host)
    requires Valid(h)
    ensures r == Update(h)
    ensures !h.mapped ==>
              r.storage[RenderBuffer(r)] == Pack(ReferenceTick(h.width, h.width, Unpack(h.storage[TickInput(h)]), h.lr))
  {
    if h.mapped {
      return h.(step := h.step + 1);
    }
    var k := h.step % 2;
    var g := BindGroupOf(k);
    var prev := Unpack(h.storage[g.input]);
    var next := Tick(h.width, h.width, prev, h.lr);
    var storage := h.storage[g.output := Pack(next)];
    r := h.(step := h.step + 1, storage := storage, results := storage[k]);
    UpdateRoles(h);
  }

  /** `readNetwork`: the contents of the read-back buffer, or nothing when
      the buffer is left mapped and mapping it again is rejected. */
  function ReadNetwork(h: Host): Option<seq<real>>
  {
    if h.mapped then None else Some(h.results)
  }

  /** The read-back lags the displayed generation by one tick: after an
      update it returns the generation that update consumed. */
  lemma ReadNetworkLags(h: Host)
    requires Valid(h) && !h.mapped
    ensures ReadNetwork(Update(h)) == Some(h.storage[TickInput(h)])
    ensures ReadNetwork(Update(h)) == Some(Update(h).storage[h.step % 2])
  {
  }

  /** `buf` with the floats from `at` on replaced by `data`. */
  function Splice(buf: seq<real>, at: nat, data: seq<real>): (r: seq<real>)
    requires at + |data| <= |buf|
    ensures |r| == |buf|
    ensures forall i :: 0 <= i < |buf| ==> r[i] == if at <= i < at + |data| then data[i - at] else buf[i]
  {
    buf[..at] + data + buf[at + |data|..]
  }

  /** Replacing the record of cell `i` changes that cell to the decoded
      record and leaves every other cell as it was. */
  lemma SpliceRecord(buf: seq<real>, i: nat, data: seq<real>)
    requires |buf| % RecordStride == 0 && i < |buf| / RecordStride && |data| == RecordStride
    ensures RecordStride * i + RecordStride <= |buf|
    ensures forall c :: 0 <= c < |buf| / RecordStride ==>
              Unpack(Splice(buf, RecordStride * i, data))[c] == if c == i then Decode(data) else Unpack(buf)[c]
  {
    var r := Splice(buf, RecordStride * i, data);
    forall c | 0 <= c < |buf| / RecordStride
      ensures Unpack(r)[c] == if c == i then Decode(data) else Unpack(buf)[c]
    {
      var lo := RecordStride * c;
      if c == i {
        assert r[lo .. lo + RecordStride] == data;
      } else {
        if c < i {
          assert lo + RecordStride <= RecordStride * i;
        } else {
          assert RecordStride * i + RecordStride <= lo;
        }
        assert r[lo .. lo + RecordStride] == buf[lo .. lo + RecordStride];
      }
    }
  }

  /** Whether the ten floats of the record at (x, y) lie inside a buffer. */
  predicate RecordInBuffer(h: Host, x: int, y: int)
  {
    var at := PositionToIndex(h.width, x, y);
    0 <= at && at + RecordStride <= Floats(h)
  }

  /** `activate(x, y, value)`: map the read-back buffer, take the cell's ten
      floats from it, set the first to `value`, and write them at the cell's
      offset in buffer `step % 2`. The coordinates are not checked: a record
      outside the buffer makes the range read throw before the unmap, which
      leaves the buffer mapped. Mapping an already mapped buffer is rejected,
      and then nothing happens. */
  function Activate(h: Host, x: int, y: int, value: real): (r: Host)
    requires Valid(h)
    ensures Valid(r) && r.step == h.step && r.results == h.results
    ensures h.mapped ==> r == h
    ensures !h.mapped && !RecordInBuffer(h, x, y) ==> r == h.(mapped := true)
    ensures !h.mapped && RecordInBuffer(h, x, y) ==>
              && r == h.(storage := r.storage)
              && r.storage[1 - ActivateBuffer(h)] == h.storage[1 - ActivateBuffer(h)]
  {
    if h.mapped then h
    else
      var at := PositionToIndex(h.width, x, y);
      if at < 0 || at + RecordStride > |h.results| then h.(mapped := true)
      else
        var data := h.results[at .. at + RecordStride][0 := value];
        var k := h.step % 2;
        h.(storage := h.storage[k := Splice(h.storage[k], at, data)])
  }

  /** The record offset of an in-grid cell, as a cell number. */
  lemma RecordOfCell(h: Host, x: nat, y: nat)
    requires Valid(h) && x < h.width && y < h.width
    ensures var i := CellIndex(h.width, h.width, x, y);
            && PositionToIndex(h.width, x, y) == RecordStride * i
            && RecordStride * i + RecordStride <= Floats(h)
            && RecordInBuffer(h, x, y)
  {
    PositionToIndexInGrid(h.width, h.width, x, y);
  }

  /** Record `i` of `buf` replaced by record `i` of `snapshot` with its first
      float set to `value`: that cell decodes to the snapshot's neuron with
      state `value`, and every other cell is as in `buf`. */
  lemma EditRecord(buf: seq<real>, snapshot: seq<real>, i: nat, value: real)
    requires |buf| == |snapshot| && |buf| % RecordStride == 0
    requires RecordStride * i + RecordStride <= |buf|
    ensures var data := snapshot[RecordStride * i .. RecordStride * i + RecordStride][0 := value];
            var cells := Unpack(Splice(buf, RecordStride * i, data));
            && cells[i] == Unpack(snapshot)[i].(state := value)
            && forall c :: 0 <= c < |buf| / RecordStride && c != i ==> cells[c] == Unpack(buf)[c]
  {
    var data := snapshot[RecordStride * i .. RecordStride * i + RecordStride][0 := value];
    SpliceRecord(buf, i, data);
    UnpackCell(snapshot, i);
    assert Decode(data) == Unpack(snapshot)[i].(state := value);
  }

  /** `activate` on an in-grid cell of an unmapped host is the edit of that
      cell's record in buffer `step % 2`, with the rest of the record from
      the read-back copy. */
  lemma ActivateIsEdit(h: Host, x: nat, y: nat, value: real)
    requires Valid(h) && !h.mapped && x < h.width && y < h.width
    ensures var i, k := CellIndex(h.width, h.width, x, y), ActivateBuffer(h);
            && RecordStride * i + RecordStride <= Floats(h)
            && !Activate(h, x, y, value).mapped
            && Activate(h, x, y, value).storage[k]
               == Splice(h.storage[k], RecordStride * i,
                         h.results[RecordStride * i .. RecordStride * i + RecordStride][0 := value])
  {
    RecordOfCell(h, x, y);
  }

  /** For an in-grid cell `activate` writes into the buffer the next tick
      reads: that tick sees `value` as the cell's state, with the fired value
      and weights of the read-back copy, and every other cell as it was. */
  lemma ActivateFeedsNextTick(h: Host, x: nat, y: nat, value: real)
    requires Valid(h) && !h.mapped && x < h.width && y < h.width
    ensures var r, i := Activate(h, x, y, value), CellIndex(h.width, h.width, x, y);
            var cells, snapshot := Unpack(r.storage[TickInput(r)]), Unpack(h.results);
            && !r.mapped
            && TickInput(r) == ActivateBuffer(h)
            && cells[i] == snapshot[i].(state := value)
            && (forall c :: 0 <= c < h.width * h.width && c != i ==> cells[c] == Unpack(h.storage[TickInput(h)])[c])
  {
    RecordOfCell(h, x, y);
    ActivateIsEdit(h, x, y, value);
    var i := CellIndex(h.width, h.width, x, y);
    EditRecord(h.storage[ActivateBuffer(h)], h.results, i, value);
  }

  /** Before the first update the read-back buffer is still zero-filled, so
      `activate` on a fresh host writes a record whose fired value and
      weights are all zero, erasing the cell's initial weights. */
  lemma ActivateOnFreshHostClearsWeights(h: Host, x: nat, y: nat, value: real)
    requires Valid(h) && !h.mapped && x < h.width && y < h.width
    requires forall i :: 0 <= i < Floats(h) ==> h.results[i] == 0.0
    ensures var i := CellIndex(h.width, h.width, x, y);
            var cell := Unpack(Activate(h, x, y, value).storage[ActivateBuffer(h)])[i];
            cell.fired == 0.0 && forall k :: 0 <= k < 8 ==> cell.connections[k] == 0.0
  {
    RecordOfCell(h, x, y);
    ActivateIsEdit(h, x, y, value);
    var i := CellIndex(h.width, h.width, x, y);
    EditRecord(h.storage[ActivateBuffer(h)], h.results, i, value);
    UnpackCell(h.results, i);
  }

  /** After an update, `activate` does not leave the cell's fired value and
      weights alone: it restores those of the generation before the update.
      A cell at state 0.25 with no afterglow shows it: the tick sets its
      afterglow to 1, and `activate` puts 0 back. */
  lemma ActivateRevertsAfterUpdate(h: Host, x: nat, y: nat, value: real)
    requires Valid(h) && !h.mapped && x < h.width && y < h.width
    requires var i := CellIndex(h.width, h.width, x, y);
             Unpack(h.storage[TickInput(h)])[i].state == 0.25 && Unpack(h.storage[TickInput(h)])[i].fired == 0.0
    ensures var i, u := CellIndex(h.width, h.width, x, y), Update(h);
            && Unpack(u.storage[TickInput(u)])[i].fired == 1.0
            && Unpack(Activate(u, x, y, value).storage[TickInput(u)])[i].fired == 0.0
  {
    var W := h.width;
    var i := CellIndex(W, W, x, y);
    var u := Update(h);
    var prev := Unpack(h.storage[TickInput(h)]);
    var next := ReferenceTick(W, W, prev, h.lr);
    UpdateRoles(h);
    assert u.storage[TickInput(u)] == Pack(next);
    PackRoundTrip(next, []);
    TickFiredIsIntrinsic(W, W, prev, h.lr, i);
    assert Unpack(u.storage[TickInput(u)])[i].fired == 1.0;
    assert u.results == h.storage[TickInput(h)];
    ActivateFeedsNextTick(u, x, y, value);
  }

  /** One column past the last cell of the last row is one record past the
      end of the buffer, and so is any cell before the first. */
  lemma RecordsOutsideTheGrid(h: Host)
    requires Valid(h)
    ensures !RecordInBuffer(h, h.width, h.width - 1)
    ensures !RecordInBuffer(h, -1, 0)
  {
    assert PositionToIndex(h.width, h.width, h.width - 1) == Floats(h);
  }

  /** A host whose read-back buffer is left mapped only counts steps: every
      update is rejected, and the buffers stay as they are. */
  lemma {:induction false} MappedUpdatesIdle(h: Host, n: nat)
    requires Valid(h) && h.mapped
    ensures Updates(h, n) == h.(step := h.step + n)
  {
    if n > 0 {
      MappedUpdatesIdle(h, n - 1);
    }
  }

  /** A refused `activate` freezes the background for good: after any number
      of further updates the buffers are unchanged while the step has
      advanced, every `readNetwork` is refused and every `activate` does
      nothing. */
  lemma RefusedActivateFreezes(h: Host, x: int, y: int, value: real, n: nat, x': int, y': int, value': real)
    requires Valid(h) && !h.mapped && !RecordInBuffer(h, x, y)
    ensures var f := Updates(Activate(h, x, y, value), n);
            && f.mapped && f.step == h.step + n
            && f.storage == h.storage && f.results == h.results
            && ReadNetwork(f).None?
            && Activate(f, x', y', value') == f
  {
    MappedUpdatesIdle(Activate(h, x, y, value), n);
  }

  /** The edit the read-back copy was meant to support: overwrite the state
      slot of the cell's record in the buffer the next tick reads, in place,
      and refuse a record outside the buffer without touching anything. */
  function ActivateInPlace(h: Host, x: int, y: int, value: real): (r: Host)
    requires Valid(h)
    ensures Valid(r) && r == h.(storage := r.storage)
    ensures !RecordInBuffer(h, x, y) ==> r == h
    ensures r.storage[1 - ActivateBuffer(h)] == h.storage[1 - ActivateBuffer(h)]
  {
    var at := PositionToIndex(h.width, x, y);
    if at < 0 || at + RecordStride > |h.results| then h
    else
      var k := h.step % 2;
      var data := h.storage[k][at .. at + RecordStride][0 := value];
      h.(storage := h.storage[k := Splice(h.storage[k], at, data)])
  }

  /** The in-place edit changes the targeted cell's state and nothing else:
      its fired value, its weights and every other cell of the buffer the
      next tick reads are as they were. */
  lemma ActivateInPlaceOnlySetsState(h: Host, x: nat, y: nat, value: real)
    requires Valid(h) && x < h.width && y < h.width
    ensures var r, i := ActivateInPlace(h, x, y, value), CellIndex(h.width, h.width, x, y);
            var cells, before := Unpack(r.storage[TickInput(r)]), Unpack(h.storage[TickInput(h)]);
            && r.storage[1 - ActivateBuffer(h)] == h.storage[1 - ActivateBuffer(h)]
            && cells[i] == before[i].(state := value)
            && (forall c :: 0 <= c < h.width * h.width && c != i ==> cells[c] == before[c])
  {
    RecordOfCell(h, x, y);
    var i, k := CellIndex(h.width, h.width, x, y), ActivateBuffer(h);
    var data := h.storage[k][RecordStride * i .. RecordStride * i + RecordStride][0 := value];
    assert ActivateInPlace(h, x, y, value).storage[k] == Splice(h.storage[k], RecordStride * i, data);
    EditRecord(h.storage[k], h.storage[k], i, value);
  }

  /** Whatever coordinates it is given, the in-place edit never stops the
      simulation: the read-back buffer stays unmapped, and the next update
      computes the tick of the buffer the edit left behind. */
  lemma InPlaceEditKeepsTicking(h: Host, x: int, y: int, value: real)
    requires Valid(h) && !h.mapped
    ensures var r := ActivateInPlace(h, x, y, value);
            && !r.mapped
            && Update(r).storage[TickInput(Update(r))]
               == Pack(ReferenceTick(h.width, h.width, Unpack(r.storage[TickInput(r)]), h.lr))
  {
    var r := ActivateInPlace(h, x, y, value);
    UpdateRoles(r);
    StepParity(r.step);
  }
}

=== FILE: neurons.dfy ===
/** One neuron of the grid and its intrinsic (neighbour-free) update.

    A neuron is a membrane `state`, a decaying `fired` afterglow and eight
    outgoing connection weights, one per neighbour offset (dx, dy) in the
    order (-1, -1), (0, -1), (1, -1), (1, 0), (1, 1), (0, 1), (-1, 1), (-1, 0).
    Row 0 is drawn at the bottom of the screen, so with y growing upwards
    direction 0 is down-left and the order runs anticlockwise on screen.
    In a buffer it occupies a record of ten floats: state, fired, then the
    eight weights. Floats are modelled as reals. */
module Neurons {

  import opened Grid

  const StateDecay: real := 0.976
  const FiredDecay: real := 0.9
  const Activation: real := 0.2

  /** The eight connection weights of a neuron. */
  type Weights = w: seq<real> | |w| == 8 witness [0.0, 0.0, 0.0, 0.0, 0.0, 0.0, 0.0, 0.0]

  datatype Neuron = Neuron(state: real, fired: real, connections: Weights)

  /** The shader's `updateNeuron` followed by the connection copy of
      `computeMain`: later assignments override earlier ones, and every test
      reads the previous state. */
  function UpdateNeuron(prev: Neuron): (next: Neuron)
    ensures prev.state >= 1.0 ==> next.state == -1.0 && next.fired == 1.0
    ensures Activation < prev.state < 1.0 ==> next.state == 1.0 && next.fired == 1.0
    ensures prev.state <= Activation ==>
              next.state == prev.state * StateDecay && next.fired == prev.fired * FiredDecay
    ensures next.connections == prev.connections
  {
    var fired0 := prev.fired * FiredDecay;
    var (state1, fired1) :=
      if prev.state > Activation then (1.0, 1.0) else (prev.state * StateDecay, fired0);
    var state2 := if prev.state >= 1.0 then -1.0 else state1;
    Neuron(state2, fired1, prev.connections)
  }

  /** The ranges a neuron's scalar fields are meant to stay in. */
  predicate InRange(n: Neuron) {
    -1.0 <= n.state <= 1.0 && 0.0 <= n.fired <= 1.0
  }

  /** The intrinsic step keeps state in [-1, 1] and fired in [0, 1]. */
  lemma UpdateNeuronPreservesRange(prev: Neuron)
    requires InRange(prev)
    ensures InRange(UpdateNeuron(prev))
  {
  }

  /** A neuron left alone for `n` ticks, with no neighbour input. */
  function Isolated(prev: Neuron, n: nat): Neuron
  {
    if n == 0 then prev else UpdateNeuron(Isolated(prev, n - 1))
  }

  /** `x` multiplied `n` times by `d`, that is x * d^n. */
  function Scaled(x: real, d: real, n: nat): real
  {
    if n == 0 then x else Scaled(x, d, n - 1) * d
  }

  lemma MulNonNegative(a: real, b: real)
    requires 0.0 <= a && 0.0 <= b
    ensures 0.0 <= a * b
  {
  }

  lemma BelowStaysBelow(v: real, d: real)
    requires v <= Activation && 0.0 <= d <= 1.0
    ensures v * d <= Activation
  {
    if v > 0.0 {
      MulNonNegative(v, 1.0 - d);
      assert v * d == v - v * (1.0 - d);
    } else {
      MulNonNegative(-v, d);
      assert v * d == -((-v) * d);
    }
  }

  /** Below the threshold an isolated neuron decays geometrically: after `n`
      ticks its state is scaled by 0.976^n and its afterglow by 0.9^n, and it
      never fires on its own. */
  lemma {:induction false} IsolatedDecay(prev: Neuron, n: nat)
    requires prev.state <= Activation
    ensures Isolated(prev, n).state == Scaled(prev.state, StateDecay, n)
    ensures Isolated(prev, n).fired == Scaled(prev.fired, FiredDecay, n)
    ensures Isolated(prev, n).state <= Activation
    ensures Isolated(prev, n).connections == prev.connections
  {
    if n > 0 {
      IsolatedDecay(prev, n - 1);
      var before := Isolated(prev, n - 1);
      assert Isolated(prev, n) == UpdateNeuron(before);
      BelowStaysBelow(before.state, StateDecay);
    }
  }

  /** The firing cycle: a neuron above the threshold is set to the firing
      sentinel 1, then forced to the refractory value -1, and only then starts
      decaying; its afterglow stays at 1 until the decay begins. */
  lemma FiringCycle(prev: Neuron)
    requires Activation < prev.state < 1.0
    ensures Isolated(prev, 1).state == 1.0 && Isolated(prev, 1).fired == 1.0
    ensures Isolated(prev, 2).state == -1.0 && Isolated(prev, 2).fired == 1.0
    ensures Isolated(prev, 3).state == -StateDecay && Isolated(prev, 3).fired == FiredDecay
  {
  }

  /** The ten-float record of a neuron. */
  function Encode(n: Neuron): (r: seq<real>)
    ensures |r| == RecordStride
    ensures r[0] == n.state && r[1] == n.fired
    ensures forall k :: 0 <= k < 8 ==> r[2 + k] == n.connections[k]
  {
    [n.state, n.fired] + n.connections
  }

  function Decode(r: seq<real>): (n: Neuron)
    requires |r| == RecordStride
  {
    Neuron(r[0], r[1], r[2..])
  }

  lemma RecordRoundTrip(n: Neuron, r: seq<real>)
    requires |r| == RecordStride
    ensures Decode(Encode(n)) == n
    ensures Encode(Decode(r)) == r
  {
    assert Encode(n)[2..] == n.connections;
    assert Encode(Decode(r)) == [r[0], r[1]] + r[2..];
  }

  /** A grid of neurons laid out as one flat buffer, record after record. */
  function Pack(cells: seq<Neuron>): (buf: seq<real>)
    ensures |buf| == RecordStride * |cells|
  {
    seq(RecordStride * |cells|, k requires 0 <= k < RecordStride * |cells| =>
      Encode(cells[k / RecordStride])[k % RecordStride])
  }

  function Unpack(buf: seq<real>): (cells: seq<Neuron>)
    requires |buf| % RecordStride == 0
    ensures RecordStride * |cells| == |buf|
  {
    seq(|buf| / RecordStride, i requires 0 <= i < |buf| / RecordStride =>
      Decode(buf[RecordStride * i .. RecordStride * i + RecordStride]))
  }

  /** Reading back a written grid gives the same grid, and writing back a
      read buffer gives the same floats. */
  lemma PackRoundTrip(cells: seq<Neuron>, buf: seq<real>)
    requires |buf| % RecordStride == 0
    ensures Unpack(Pack(cells)) == cells
    ensures Pack(Unpack(buf)) == buf
  {
    UnpackPack(cells);
    PackUnpack(buf);
  }

  lemma UnpackPack(cells: seq<Neuron>)
    ensures Unpack(Pack(cells)) == cells
  {
    var p := Pack(cells);
    DivModUnique(|p|, RecordStride, |cells|, 0);
    forall i | 0 <= i < |cells|
      ensures Unpack(p)[i] == cells[i]
    {
      var rec := p[RecordStride * i .. RecordStride * i + RecordStride];
      PackedRecord(cells, i);
      RecordRoundTrip(cells[i], rec);
    }
  }

  /** Floats 10i .. 10i+9 of a packed grid are the record of cell `i`. */
  lemma PackedRecord(cells: seq<Neuron>, i: nat)
    requires i < |cells|
    ensures RecordStride * i + RecordStride <= |Pack(cells)|
    ensures Pack(cells)[RecordStride * i .. RecordStride * i + RecordStride] == Encode(cells[i])
  {
    var rec := Pack(cells)[RecordStride * i .. RecordStride * i + RecordStride];
    forall k | 0 <= k < RecordStride
      ensures rec[k] == Encode(cells[i])[k]
    {
      DivModUnique(RecordStride * i + k, RecordStride, i, k);
    }
  }

  lemma PackUnpack(buf: seq<real>)
    requires |buf| % RecordStride == 0
    ensures Pack(Unpack(buf)) == buf
  {
    var u := Unpack(buf);
    forall k | 0 <= k < |buf|
      ensures Pack(u)[k] == buf[k]
    {
      var i, r := k / RecordStride, k % RecordStride;
      assert k == RecordStride * i + r;
      UnpackedRecord(buf, i);
    }
  }

  /** Cell `i` of a read buffer writes back as floats 10i .. 10i+9. */
  lemma UnpackedRecord(buf: seq<real>, i: nat)
    requires |buf| % RecordStride == 0 && i < |buf| / RecordStride
    ensures RecordStride * i + RecordStride <= |buf|
    ensures Encode(Unpack(buf)[i]) == buf[RecordStride * i .. RecordStride * i + RecordStride]
  {
    var rec := buf[RecordStride * i .. RecordStride * i + RecordStride];
    RecordRoundTrip(Decode(rec), rec);
  }

  /** The record of cell `i` occupies floats 10i .. 10i+9 of the buffer. */
  lemma UnpackCell(buf: seq<real>, i: nat)
    requires |buf| % RecordStride == 0
    requires i < |buf| / RecordStride
    ensures Unpack(buf)[i].state == buf[RecordStride * i]
    ensures Unpack(buf)[i].fired == buf[RecordStride * i + 1]
    ensures forall k :: 0 <= k < 8 ==> Unpack(buf)[i].connections[k] == buf[RecordStride * i + 2 + k]
  {
  }
}

=== FILE: options.dfy ===
/** An optional value: a neighbour that may lie outside the grid, a caller
    setting that may be absent, a read-back that may be refused. */
module Options {

  datatype Option<+T> = None | Some(value: T)
}

=== FILE: propagation.dfy ===
/** Neighbour propagation and Hebbian learning: one tick of the grid.

    Every cell whose previous state is exactly the firing sentinel 1 adds its
    outgoing weight in direction `j` to the state of its neighbour in that
    direction, and nudges one weight of that neighbour, slot `(j + 3) % 8`,
    towards the ceiling 0.1. Neighbours are visited only inside the grid: the
    traversal does not wrap, although the index function does.

    On the GPU each cell is one invocation, the intrinsic writes and the
    neighbours' `+=` race, and the additions happen in no fixed order. The
    model gives the race-free reading instead: first every cell's intrinsic
    step, then every firing contribution summed in. `ReferenceTick` states the
    result per target cell ("pull"); the method `Tick` performs the writes
    source by source, direction by direction, as the invocations do ("push"),
    and is proved to produce the same grid. */
module Propagation {

  import opened Options
  import opened Grid
  import opened Neurons

  /** Saturation ceiling of a connection weight. */
  const MaxWeight: real := 0.1
  /** Range of the training drive `fired * (TMax - TMin) + TMin`. */
  const TMax: real := 1.0
  const TMin: real := -0.2
  /** Learning rate used when the caller supplies none. */
  const DefaultLearningRate: real := 0.6

  /** The learning rate baked into the shader: the caller's, or 0.6. */
  function LearningRate(requested: Option<real>): real
  {
    match requested
    case Some(v) => v
    case None => DefaultLearningRate
  }

  datatype Offset = Offset(dx: int, dy: int)

  /** The shader's `getConnection`: the eight neighbour offsets, from
      (-1, -1) round to (-1, 0); (0, 0) otherwise. */
  function GetConnection(n: int): (o: Offset)
    ensures 0 <= n < 8 ==> o != Offset(0, 0) && -1 <= o.dx <= 1 && -1 <= o.dy <= 1
    ensures !(0 <= n < 8) ==> o == Offset(0, 0)
  {
    if n == 0 then Offset(-1, -1)
    else if n == 1 then Offset(0, -1)
    else if n == 2 then Offset(1, -1)
    else if n == 3 then Offset(1, 0)
    else if n == 4 then Offset(1, 1)
    else if n == 5 then Offset(0, 1)
    else if n == 6 then Offset(-1, 1)
    else if n == 7 then Offset(-1, 0)
    else Offset(0, 0)
  }

  /** The eight directions are pairwise distinct, and together they are every
      non-zero offset with components in {-1, 0, 1}; the (0, 0) default is
      never produced inside the loop. */
  lemma ConnectionsAreCompass()
    ensures forall j, k :: 0 <= j < 8 && 0 <= k < 8 && j != k ==> GetConnection(j) != GetConnection(k)
    ensures forall dx: int, dy: int :: -1 <= dx <= 1 && -1 <= dy <= 1 && (dx != 0 || dy != 0) ==>
              exists j :: 0 <= j < 8 && GetConnection(j) == Offset(dx, dy)
  {
    forall dx: int, dy: int | -1 <= dx <= 1 && -1 <= dy <= 1 && (dx != 0 || dy != 0)
      ensures exists j :: 0 <= j < 8 && GetConnection(j) == Offset(dx, dy)
    {
      var j := if dy == -1 then dx + 1 else if dy == 1 then 5 - dx else if dx == 1 then 3 else 7;
      assert GetConnection(j) == Offset(dx, dy);
    }
  }

  /** Direction `(j + 4) % 8` is the exact opposite of direction `j`. */
  function Opposite(j: int): int { (j + 4) % 8 }

  /** The weight slot the shader trains in the neighbour reached through
      direction `j`. */
  function BackSlot(j: int): int { (j + 3) % 8 }

  /** The direction whose neighbour writes are trained in slot `w`. */
  function ForwardSlot(w: int): int { (w + 5) % 8 }

  lemma OppositeNegates(j: int)
    requires 0 <= j < 8
    ensures 0 <= Opposite(j) < 8
    ensures GetConnection(Opposite(j)) == Offset(-GetConnection(j).dx, -GetConnection(j).dy)
  {
  }

  /** The trained slot is never the slot pointing back at the firing cell:
      it is the slot just before it in the table (for j = 0, offset (-1, -1),
      the slot is 3, offset (1, 0), while the way back is (1, 1)). */
  lemma BackSlotIsNotOpposite(j: int)
    requires 0 <= j < 8
    ensures BackSlot(j) != Opposite(j)
    ensures GetConnection(BackSlot(j)) != Offset(-GetConnection(j).dx, -GetConnection(j).dy)
  {
    OppositeNegates(j);
    ConnectionsAreCompass();
  }

  /** `BackSlot` is a permutation of the eight slots, undone by `ForwardSlot`. */
  lemma BackSlotBijective(j: int, w: int)
    requires 0 <= j < 8 && 0 <= w < 8
    ensures 0 <= BackSlot(j) < 8 && 0 <= ForwardSlot(w) < 8
    ensures ForwardSlot(BackSlot(j)) == j
    ensures BackSlot(ForwardSlot(w)) == w
    ensures BackSlot(j) == w <==> j == ForwardSlot(w)
  {
  }

  /** The shader's bounds test on the unwrapped neighbour coordinate. */
  predicate InGrid(W: nat, H: nat, x: int, y: int)
  {
    0 <= x < W && 0 <= y < H
  }

  /** Grid coordinates of a linear index recover it. */
  lemma CoordinatesOf(W: Side, H: Side, i: nat)
    requires i < W * H
    ensures InGrid(W, H, ColumnOf(W, i), RowOf(W, i))
    ensures CellIndex(W, H, ColumnOf(W, i), RowOf(W, i)) == i
  {
    CellIndexInverse(W, H, i);
  }

  /** A cell index of in-grid coordinates gives those coordinates back. */
  lemma IndexOfCoordinates(W: Side, H: Side, x: nat, y: nat)
    requires x < W && y < H
    ensures ColumnOf(W, CellIndex(W, H, x, y)) == x
    ensures RowOf(W, CellIndex(W, H, x, y)) == y
  {
    RowMajor(W, H, y, x);
  }

  /** The neighbour that cell `s` writes into through direction `j`, if that
      neighbour lies inside the grid. */
  function Target(W: Side, H: Side, s: nat, j: int): (t: Option<nat>)
    requires s < W * H
    ensures t.Some? ==> t.value < W * H
  {
    CoordinatesOf(W, H, s);
    var o := GetConnection(j);
    var x, y := ColumnOf(W, s) + o.dx, RowOf(W, s) + o.dy;
    if InGrid(W, H, x, y) then Some(CellIndex(W, H, x, y)) else None
  }

  /** The cell that writes into cell `t` through direction `j`, if any. */
  function Source(W: Side, H: Side, t: nat, j: int): (s: Option<nat>)
    requires t < W * H
    ensures s.Some? ==> s.value < W * H
  {
    CoordinatesOf(W, H, t);
    var o := GetConnection(j);
    var x, y := ColumnOf(W, t) - o.dx, RowOf(W, t) - o.dy;
    if InGrid(W, H, x, y) then Some(CellIndex(W, H, x, y)) else None
  }

  /** Cell `s` writes into `t` through direction `j` exactly when `s` is the
      source of `t` in that direction. */
  lemma TargetSourceDual(W: Side, H: Side, s: nat, t: nat, j: int)
    requires s < W * H && t < W * H
    ensures Target(W, H, s, j) == Some(t) <==> Source(W, H, t, j) == Some(s)
  {
    CoordinatesOf(W, H, s);
    CoordinatesOf(W, H, t);
    var o := GetConnection(j);
    if Target(W, H, s, j) == Some(t) {
      IndexOfCoordinates(W, H, ColumnOf(W, s) + o.dx, RowOf(W, s) + o.dy);
    }
    if Source(W, H, t, j) == Some(s) {
      IndexOfCoordinates(W, H, ColumnOf(W, t) - o.dx, RowOf(W, t) - o.dy);
    }
  }

  /** Distinct directions of one cell reach distinct neighbours. */
  lemma TargetsDistinct(W: Side, H: Side, s: nat, j: int, k: int)
    requires s < W * H && 0 <= j < 8 && 0 <= k < 8
    requires Target(W, H, s, j).Some? && Target(W, H, s, j) == Target(W, H, s, k)
    ensures j == k
  {
    var t := Target(W, H, s, j).value;
    CoordinatesOf(W, H, s);
    var oj, ok := GetConnection(j), GetConnection(k);
    IndexOfCoordinates(W, H, ColumnOf(W, s) + oj.dx, RowOf(W, s) + oj.dy);
    IndexOfCoordinates(W, H, ColumnOf(W, s) + ok.dx, RowOf(W, s) + ok.dy);
    ConnectionsAreCompass();
  }

  /** Each target weight slot receives at most one Hebbian delta per tick:
      `(s, j) |-> (Target(s, j), BackSlot(j))` is injective. */
  lemma HebbianWritesInjective(W: Side, H: Side, s: nat, j: int, s': nat, j': int)
    requires s < W * H && s' < W * H && 0 <= j < 8 && 0 <= j' < 8
    requires Target(W, H, s, j).Some? && Target(W, H, s, j) == Target(W, H, s', j')
    requires BackSlot(j) == BackSlot(j')
    ensures s == s' && j == j'
  {
    BackSlotBijective(j, BackSlot(j));
    BackSlotBijective(j', BackSlot(j'));
    var t := Target(W, H, s, j).value;
    TargetSourceDual(W, H, s, t, j);
    TargetSourceDual(W, H, s', t, j);
  }

  /** Number of directions whose neighbour passes the bounds test. */
  function NeighbourCount(W: nat, H: nat, x: int, y: int): nat
  {
    CountFrom(W, H, x, y, 0)
  }

  function CountFrom(W: nat, H: nat, x: int, y: int, j: nat): nat
    requires j <= 8
    decreases 8 - j
  {
    if j == 8 then 0
    else
      var o := GetConnection(j);
      (if InGrid(W, H, x + o.dx, y + o.dy) then 1 else 0) + CountFrom(W, H, x, y, j + 1)
  }

  /** An interior cell has 8 neighbours, a corner 3, any other border cell 5. */
  lemma NeighbourCountByPosition(W: nat, H: nat, x: nat, y: nat)
    requires 2 <= W && 2 <= H && x < W && y < H
    ensures var xEdge, yEdge := x == 0 || x == W - 1, y == 0 || y == H - 1;
            NeighbourCount(W, H, x, y) == if xEdge && yEdge then 3 else if xEdge || yEdge then 5 else 8
  {
    // CountFrom unrolls over the eight directions; each adds 1 exactly when
    // the shifted coordinate passes the bounds test.
  }

  /** The training drive of a firing cell with afterglow `fired`. */
  function Drive(fired: real): real
  {
    fired * (TMax - TMin) + TMin
  }

  /** The increment the shader adds to a neighbour's weight `w`. */
  function HebbianDelta(fired: real, w: real, lr: real): real
  {
    Drive(fired) * (MaxWeight - w) * lr
  }

  lemma DriveBounds(fired: real)
    requires 0.0 <= fired <= 1.0
    ensures TMin <= Drive(fired) <= TMax
  {
  }

  /** One Hebbian update never pushes a weight past the ceiling 0.1, and a
      drive that is non-negative never moves it away from the ceiling. */
  lemma HebbianCeiling(fired: real, w: real, lr: real)
    requires 0.0 <= fired <= 1.0 && 0.0 <= lr <= 1.0 && w <= MaxWeight
    ensures w + HebbianDelta(fired, w, lr) <= MaxWeight
    ensures Drive(fired) >= 0.0 ==> w <= w + HebbianDelta(fired, w, lr)
  {
    DriveTimesRate(fired, lr);
    var d, g := Drive(fired), MaxWeight - w;
    var p := d * lr;
    assert HebbianDelta(fired, w, lr) == g * p;
    assert g * p <= g by { assert g * (1.0 - p) >= 0.0; }
    if d >= 0.0 {
      assert p >= 0.0;
      assert g * p >= 0.0;
    }
  }

  /** A weight trained `k` times by the same source with fixed afterglow and
      learning rate. */
  function HebbianRepeat(w: real, fired: real, lr: real, k: nat): real
  {
    if k == 0 then w
    else
      var prev := HebbianRepeat(w, fired, lr, k - 1);
      prev + HebbianDelta(fired, prev, lr)
  }

  lemma {:induction false} ScaledNonNegative(x: real, d: real, n: nat)
    requires 0.0 <= x && 0.0 <= d
    ensures 0.0 <= Scaled(x, d, n)
  {
    if n > 0 {
      ScaledNonNegative(x, d, n - 1);
      var v := Scaled(x, d, n - 1);
      assert v * d >= 0.0;
    }
  }

  /** Repeated training closes the gap to the ceiling geometrically, by the
      factor 1 - Drive(fired) * lr per update. */
  lemma {:induction false} HebbianRepeatGap(w: real, fired: real, lr: real, k: nat)
    ensures MaxWeight - HebbianRepeat(w, fired, lr, k) == Scaled(MaxWeight - w, 1.0 - Drive(fired) * lr, k)
  {
    if k > 0 {
      HebbianRepeatGap(w, fired, lr, k - 1);
      var prev := HebbianRepeat(w, fired, lr, k - 1);
      var f := 1.0 - Drive(fired) * lr;
      assert HebbianDelta(fired, prev, lr) == (MaxWeight - prev) * (Drive(fired) * lr);
      assert MaxWeight - HebbianRepeat(w, fired, lr, k) == (MaxWeight - prev) * f;
    }
  }

  /** For any number of updates with a fixed afterglow in [0, 1] and a
      learning rate in [0, 1], a weight starting at or below the ceiling
      stays at or below it. */
  lemma HebbianRepeatBounded(w: real, fired: real, lr: real, k: nat)
    requires 0.0 <= fired <= 1.0 && 0.0 <= lr <= 1.0 && w <= MaxWeight
    ensures HebbianRepeat(w, fired, lr, k) <= MaxWeight
  {
    HebbianRepeatGap(w, fired, lr, k);
    DriveBounds(fired);
    DriveTimesRate(fired, lr);
    ScaledNonNegative(MaxWeight - w, 1.0 - Drive(fired) * lr, k);
  }

  lemma DriveTimesRate(fired: real, lr: real)
    requires 0.0 <= fired <= 1.0 && 0.0 <= lr <= 1.0
    ensures Drive(fired) * lr <= 1.0
  {
    DriveBounds(fired);
    if Drive(fired) >= 0.0 {
      assert Drive(fired) * lr <= Drive(fired) by { assert Drive(fired) * (1.0 - lr) >= 0.0; }
    } else {
      assert Drive(fired) * lr <= 0.0 by { assert (-Drive(fired)) * lr >= 0.0; }
    }
  }

  /** A cell propagates only at the exact firing sentinel, not merely above
      the threshold. */
  predicate Fires(n: Neuron)
  {
    n.state == 1.0
  }

  function Sum(xs: seq<real>): real
  {
    if xs == [] then 0.0 else xs[0] + Sum(xs[1..])
  }

  lemma {:induction false} SumUpdate(xs: seq<real>, i: nat, v: real)
    requires i < |xs|
    ensures Sum(xs[i := v]) == Sum(xs) - xs[i] + v
  {
    if i > 0 {
      SumUpdate(xs[1..], i - 1, v);
      assert xs[i := v][1..] == xs[1..][i - 1 := v];
    }
  }

  lemma {:induction false} SumZero(xs: seq<real>)
    requires forall i :: 0 <= i < |xs| ==> xs[i] == 0.0
    ensures Sum(xs) == 0.0
  {
    if xs != [] {
      SumZero(xs[1..]);
    }
  }

  /** What cell `t` receives into its state through direction `k`. */
  function StateInflow(W: Side, H: Side, prev: seq<Neuron>, t: nat, k: int): real
    requires |prev| == W * H && t < W * H && 0 <= k < 8
  {
    match Source(W, H, t, k)
    case None => 0.0
    case Some(s) => if Fires(prev[s]) then prev[s].connections[k] else 0.0
  }

  /** What cell `t` receives into its weight slot `w`. */
  function WeightInflow(W: Side, H: Side, prev: seq<Neuron>, lr: real, t: nat, w: int): real
    requires |prev| == W * H && t < W * H && 0 <= w < 8
  {
    match Source(W, H, t, ForwardSlot(w))
    case None => 0.0
    case Some(s) =>
      if Fires(prev[s]) then HebbianDelta(prev[s].fired, prev[t].connections[w], lr) else 0.0
  }

  /** Race-free next value of cell `t`: its intrinsic step, plus every
      contribution of its firing in-grid neighbours. */
  function NextCell(W: Side, H: Side, prev: seq<Neuron>, lr: real, t: nat): Neuron
    requires |prev| == W * H && t < W * H
  {
    var base := UpdateNeuron(prev[t]);
    Neuron(base.state + Sum(seq(8, k requires 0 <= k < 8 => StateInflow(W, H, prev, t, k))),
           base.fired,
           seq(8, w requires 0 <= w < 8 => base.connections[w] + WeightInflow(W, H, prev, lr, t, w)))
  }

  /** The sequential reference semantics of one tick. */
  function ReferenceTick(W: Side, H: Side, prev: seq<Neuron>, lr: real): (next: seq<Neuron>)
    requires |prev| == W * H
    ensures |next| == |prev|
  {
    seq(W * H, t requires 0 <= t < W * H => NextCell(W, H, prev, lr, t))
  }

  /** Propagation never touches the afterglow, so a tick keeps every cell's
      fired value in [0, 1]. */
  lemma TickFiredIsIntrinsic(W: Side, H: Side, prev: seq<Neuron>, lr: real, t: nat)
    requires |prev| == W * H && t < W * H
    ensures ReferenceTick(W, H, prev, lr)[t].fired == UpdateNeuron(prev[t]).fired
    ensures 0.0 <= prev[t].fired <= 1.0 ==> 0.0 <= ReferenceTick(W, H, prev, lr)[t].fired <= 1.0
  {
  }

  /** A square grid of side `W` whose cell 0 sits at the sentinel with east
      weight 0.1, whose cell 1, its east neighbour, is idle at 0.5 and about to
      jump to the sentinel itself, and whose other cells are all zero. */
  function RangeBreakingGrid(W: Side): (g: seq<Neuron>)
    requires 2 <= W
    ensures |g| == W * W
    ensures forall s :: 0 <= s < W * W ==> InRange(g[s])
    ensures forall s, k :: 0 <= s < W * W && 0 <= k < 8 ==> g[s].connections[k] <= MaxWeight
    ensures g[0].state == 1.0 && g[0].connections[3] == 0.1 && g[1].state == 0.5
    ensures forall s :: 1 <= s < W * W ==> !Fires(g[s])
  {
    var zeros: Weights := [0.0, 0.0, 0.0, 0.0, 0.0, 0.0, 0.0, 0.0];
    seq(W * W, i requires 0 <= i < W * W =>
      if i == 0 then Neuron(1.0, 1.0, zeros[3 := 0.1])
      else if i == 1 then Neuron(0.5, 0.0, zeros)
      else Neuron(0.0, 0.0, zeros))
  }

  /** Propagation can take a state out of [-1, 1] on every square grid the
      host can build, even when every cell starts in range with its weights
      at or below the ceiling: the firing cell's 0.1 lands on top of its
      neighbour's jump to 1. */
  lemma TickCanLeaveRange(W: Side)
    requires 2 <= W
    ensures var prev := RangeBreakingGrid(W);
            && (forall s :: 0 <= s < W * W ==> InRange(prev[s]))
            && (forall s, k :: 0 <= s < W * W && 0 <= k < 8 ==> prev[s].connections[k] <= MaxWeight)
            && ReferenceTick(W, W, prev, DefaultLearningRate)[1].state == 1.1
  {
    var prev := RangeBreakingGrid(W);
    var zeros: Weights := [0.0, 0.0, 0.0, 0.0, 0.0, 0.0, 0.0, 0.0];
    RowMajor(W, W, 0, 0);
    RowMajor(W, W, 0, 1);
    var inflow := seq(8, k requires 0 <= k < 8 => StateInflow(W, W, prev, 1, k));
    forall k | 0 <= k < 8
      ensures inflow[k] == zeros[3 := 0.1][k]
    {
      TargetSourceDual(W, W, 0, 1, k);
      if k == 3 {
        assert Target(W, W, 0, 3) == Some(1);
      }
    }
    assert inflow == zeros[3 := 0.1];
    SumZero(zeros);
    SumUpdate(zeros, 3, 0.1);
    assert ReferenceTick(W, W, prev, DefaultLearningRate)[1] == NextCell(W, W, prev, DefaultLearningRate, 1);
  }

  /** A grid in which no cell sits at the firing sentinel evolves purely
      intrinsically: no state is propagated and no weight is trained. */
  lemma QuietTick(W: Side, H: Side, prev: seq<Neuron>, lr: real)
    requires |prev| == W * H
    requires forall s :: 0 <= s < W * H ==> !Fires(prev[s])
    ensures forall t :: 0 <= t < W * H ==> ReferenceTick(W, H, prev, lr)[t] == UpdateNeuron(prev[t])
  {
    forall t | 0 <= t < W * H
      ensures ReferenceTick(W, H, prev, lr)[t] == UpdateNeuron(prev[t])
    {
      var inflow := seq(8, k requires 0 <= k < 8 => StateInflow(W, H, prev, t, k));
      SumZero(inflow);
      var base := UpdateNeuron(prev[t]);
      assert ReferenceTick(W, H, prev, lr)[t].connections == base.connections;
    }
  }

  /** Weights bounded by the ceiling stay bounded across a tick, given
      afterglows in [0, 1] and a learning rate in [0, 1]. */
  lemma TickKeepsWeightCeiling(W: Side, H: Side, prev: seq<Neuron>, lr: real)
    requires |prev| == W * H && 0.0 <= lr <= 1.0
    requires forall s :: 0 <= s < W * H ==> 0.0 <= prev[s].fired <= 1.0
    requires forall s, k :: 0 <= s < W * H && 0 <= k < 8 ==> prev[s].connections[k] <= MaxWeight
    ensures forall t, k :: 0 <= t < W * H && 0 <= k < 8 ==>
              ReferenceTick(W, H, prev, lr)[t].connections[k] <= MaxWeight
  {
    forall t, k | 0 <= t < W * H && 0 <= k < 8
      ensures ReferenceTick(W, H, prev, lr)[t].connections[k] <= MaxWeight
    {
      match Source(W, H, t, ForwardSlot(k))
      case None =>
      case Some(s) =>
        HebbianCeiling(prev[s].fired, prev[t].connections[k], lr);
    }
  }

  /** The default configuration keeps the ceiling: with no caller rate the
      shader trains at 0.6, and a tick keeps weights at or below 0.1. */
  lemma DefaultRateKeepsCeiling(W: Side, H: Side, prev: seq<Neuron>)
    requires |prev| == W * H
    requires forall s :: 0 <= s < W * H ==> 0.0 <= prev[s].fired <= 1.0
    requires forall s, k :: 0 <= s < W * H && 0 <= k < 8 ==> prev[s].connections[k] <= MaxWeight
    ensures 0.0 <= LearningRate(None) <= 1.0
    ensures forall t, k :: 0 <= t < W * H && 0 <= k < 8 ==>
              ReferenceTick(W, H, prev, LearningRate(None))[t].connections[k] <= MaxWeight
  {
    TickKeepsWeightCeiling(W, H, prev, LearningRate(None));
  }

  /** A caller's rate is used as given, and above 1 the ceiling no longer
      holds: a cell with afterglow 1 training a zero weight at rate 2 takes
      it to 0.2. */
  lemma CallerRateAboveOneOvershoots()
    ensures forall v :: LearningRate(Some(v)) == v
    ensures exists fired: real, w: real, lr: real ::
              && 0.0 <= fired <= 1.0 && w <= MaxWeight && 1.0 < lr
              && w + HebbianDelta(fired, w, lr) > MaxWeight
  {
    assert 0.0 + HebbianDelta(1.0, 0.0, 2.0) == 0.2;
  }

  /** Progress of the push loop: every pair (source, direction) before the
      cursor has been written. */
  datatype Cursor = Cursor(src: nat, dir: nat)

  predicate Pushed(s: nat, j: nat, c: Cursor)
  {
    s < c.src || (s == c.src && j < c.dir)
  }

  /** Whether the write reaching `t` through direction `k` has happened. */
  predicate Arrived(W: Side, H: Side, t: nat, k: int, c: Cursor)
    requires t < W * H && 0 <= k < 8
  {
    match Source(W, H, t, k)
    case None => false
    case Some(s) => Pushed(s, k, c)
  }

  /** The state contributions that have reached cell `t` before cursor `c`. */
  function ArrivedInflows(W: Side, H: Side, prev: seq<Neuron>, t: nat, c: Cursor): (xs: seq<real>)
    requires |prev| == W * H && t < W * H
    ensures |xs| == 8
  {
    seq(8, k requires 0 <= k < 8 => if Arrived(W, H, t, k, c) then StateInflow(W, H, prev, t, k) else 0.0)
  }

  /** The weights of cell `t` once the deltas before cursor `c` have landed. */
  function ArrivedWeights(W: Side, H: Side, prev: seq<Neuron>, lr: real, t: nat, c: Cursor): Weights
    requires |prev| == W * H && t < W * H
  {
    seq(8, w requires 0 <= w < 8 => prev[t].connections[w] +
      if Arrived(W, H, t, ForwardSlot(w), c) then WeightInflow(W, H, prev, lr, t, w) else 0.0)
  }

  /** Cell `t` after the writes before cursor `c` have landed. */
  function PartialCell(W: Side, H: Side, prev: seq<Neuron>, lr: real, t: nat, c: Cursor): Neuron
    requires |prev| == W * H && t < W * H
  {
    var base := UpdateNeuron(prev[t]);
    Neuron(base.state + Sum(ArrivedInflows(W, H, prev, t, c)), base.fired, ArrivedWeights(W, H, prev, lr, t, c))
  }

  /** The writes of invocation `s` in direction `j` (background.js:78-93). */
  function Push(W: Side, H: Side, prev: seq<Neuron>, lr: real, next: seq<Neuron>, s: nat, j: int): (r: seq<Neuron>)
    requires |prev| == W * H && |next| == W * H && s < W * H && 0 <= j < 8
    ensures |r| == W * H
    ensures forall t :: 0 <= t < W * H && (Target(W, H, s, j) != Some(t) || !Fires(prev[s])) ==> r[t] == next[t]
  {
    match Target(W, H, s, j)
    case None => next
    case Some(t) =>
      if Fires(prev[s]) then
        var b := BackSlot(j);
        var n := next[t];
        var w := n.connections[b] + HebbianDelta(prev[s].fired, prev[t].connections[b], lr);
        next[t := Neuron(n.state + prev[s].connections[j], n.fired, n.connections[b := w])]
      else next
  }

  lemma PushStartsIntrinsic(W: Side, H: Side, prev: seq<Neuron>, lr: real, t: nat)
    requires |prev| == W * H && t < W * H
    ensures PartialCell(W, H, prev, lr, t, Cursor(0, 0)) == UpdateNeuron(prev[t])
  {
    SumZero(ArrivedInflows(W, H, prev, t, Cursor(0, 0)));
    assert ArrivedWeights(W, H, prev, lr, t, Cursor(0, 0)) == prev[t].connections;
  }

  lemma PushRowEnd(W: Side, H: Side, prev: seq<Neuron>, lr: real, t: nat, s: nat)
    requires |prev| == W * H && t < W * H
    ensures PartialCell(W, H, prev, lr, t, Cursor(s, 8)) == PartialCell(W, H, prev, lr, t, Cursor(s + 1, 0))
  {
    var c, c' := Cursor(s, 8), Cursor(s + 1, 0);
    forall k | 0 <= k < 8
      ensures Arrived(W, H, t, k, c) == Arrived(W, H, t, k, c')
    {
    }
    assert ArrivedInflows(W, H, prev, t, c) == ArrivedInflows(W, H, prev, t, c');
    assert ArrivedWeights(W, H, prev, lr, t, c) == ArrivedWeights(W, H, prev, lr, t, c');
  }

  lemma PushComplete(W: Side, H: Side, prev: seq<Neuron>, lr: real, t: nat)
    requires |prev| == W * H && t < W * H
    ensures PartialCell(W, H, prev, lr, t, Cursor(W * H, 0)) == NextCell(W, H, prev, lr, t)
  {
    var c := Cursor(W * H, 0);
    assert ArrivedInflows(W, H, prev, t, c) == seq(8, k requires 0 <= k < 8 => StateInflow(W, H, prev, t, k));
    var base := UpdateNeuron(prev[t]);
    assert ArrivedWeights(W, H, prev, lr, t, c)
        == seq(8, w requires 0 <= w < 8 => base.connections[w] + WeightInflow(W, H, prev, lr, t, w));
  }

  /** Moving the cursor past (s, j) makes exactly the write of `s` through
      direction `j` arrive. */
  lemma ArrivedStep(W: Side, H: Side, s: nat, j: nat, t: nat, k: int)
    requires s < W * H && t < W * H && j < 8 && 0 <= k < 8
    ensures Arrived(W, H, t, k, Cursor(s, j + 1))
         == (Arrived(W, H, t, k, Cursor(s, j)) || (k == j && Target(W, H, s, j) == Some(t)))
  {
    TargetSourceDual(W, H, s, t, k);
  }

  /** A cell that is not the target of the step is left as it was. */
  lemma PushOtherCell(W: Side, H: Side, prev: seq<Neuron>, lr: real, s: nat, j: nat, t: nat)
    requires |prev| == W * H && s < W * H && t < W * H && j < 8
    requires Target(W, H, s, j) != Some(t)
    ensures PartialCell(W, H, prev, lr, t, Cursor(s, j + 1)) == PartialCell(W, H, prev, lr, t, Cursor(s, j))
  {
    forall k | 0 <= k < 8
      ensures Arrived(W, H, t, k, Cursor(s, j + 1)) == Arrived(W, H, t, k, Cursor(s, j))
    {
      ArrivedStep(W, H, s, j, t, k);
    }
    assert ArrivedInflows(W, H, prev, t, Cursor(s, j + 1)) == ArrivedInflows(W, H, prev, t, Cursor(s, j));
    assert ArrivedWeights(W, H, prev, lr, t, Cursor(s, j + 1)) == ArrivedWeights(W, H, prev, lr, t, Cursor(s, j));
  }

  /** The target of the step gains exactly the state inflow of direction `j`
      and the Hebbian delta in slot `BackSlot(j)`. */
  lemma PushTargetCell(W: Side, H: Side, prev: seq<Neuron>, lr: real, s: nat, j: nat, t: nat)
    requires |prev| == W * H && s < W * H && t < W * H && j < 8
    requires Target(W, H, s, j) == Some(t)
    ensures var before, after := PartialCell(W, H, prev, lr, t, Cursor(s, j)), PartialCell(W, H, prev, lr, t, Cursor(s, j + 1));
            && after.state == before.state + StateInflow(W, H, prev, t, j)
            && after.fired == before.fired
            && after.connections == before.connections[BackSlot(j) := before.connections[BackSlot(j)] + WeightInflow(W, H, prev, lr, t, BackSlot(j))]
  {
    var c, c' := Cursor(s, j), Cursor(s, j + 1);
    var b := BackSlot(j);
    TargetSourceDual(W, H, s, t, j);
    BackSlotBijective(j, b);
    var inflow, inflow' := ArrivedInflows(W, H, prev, t, c), ArrivedInflows(W, H, prev, t, c');
    forall k | 0 <= k < 8
      ensures inflow'[k] == inflow[j := StateInflow(W, H, prev, t, j)][k]
    {
      ArrivedStep(W, H, s, j, t, k);
    }
    assert inflow' == inflow[j := StateInflow(W, H, prev, t, j)];
    SumUpdate(inflow, j, StateInflow(W, H, prev, t, j));
    var ws, ws' := ArrivedWeights(W, H, prev, lr, t, c), ArrivedWeights(W, H, prev, lr, t, c');
    forall w | 0 <= w < 8
      ensures ws'[w] == ws[b := ws[b] + WeightInflow(W, H, prev, lr, t, b)][w]
    {
      BackSlotBijective(j, w);
      ArrivedStep(W, H, s, j, t, ForwardSlot(w));
    }
  }

  /** One push step moves the cursor by one without breaking the
      correspondence with the partially applied reference cell. */
  lemma PushAdvances(W: Side, H: Side, prev: seq<Neuron>, lr: real, next: seq<Neuron>, s: nat, j: nat)
    requires |prev| == W * H && |next| == W * H && s < W * H && j < 8
    requires forall t :: 0 <= t < W * H ==> next[t] == PartialCell(W, H, prev, lr, t, Cursor(s, j))
    ensures forall t :: 0 <= t < W * H ==>
              Push(W, H, prev, lr, next, s, j)[t] == PartialCell(W, H, prev, lr, t, Cursor(s, j + 1))
  {
    var r := Push(W, H, prev, lr, next, s, j);
    forall t | 0 <= t < W * H
      ensures r[t] == PartialCell(W, H, prev, lr, t, Cursor(s, j + 1))
    {
      if Target(W, H, s, j) == Some(t) {
        PushTargetAgrees(W, H, prev, lr, next, s, j, t);
      } else {
        PushOtherCell(W, H, prev, lr, s, j, t);
      }
    }
  }

  /** The write into the step's target lands as the cursor move predicts,
      including when the source does not fire and nothing is written. */
  lemma PushTargetAgrees(W: Side, H: Side, prev: seq<Neuron>, lr: real, next: seq<Neuron>, s: nat, j: nat, t: nat)
    requires |prev| == W * H && |next| == W * H && s < W * H && t < W * H && j < 8
    requires Target(W, H, s, j) == Some(t)
    requires next[t] == PartialCell(W, H, prev, lr, t, Cursor(s, j))
    ensures Push(W, H, prev, lr, next, s, j)[t] == PartialCell(W, H, prev, lr, t, Cursor(s, j + 1))
  {
    PushTargetCell(W, H, prev, lr, s, j, t);
    TargetSourceDual(W, H, s, t, j);
    if !Fires(prev[s]) {
      assert StateInflow(W, H, prev, t, j) == 0.0;
      var b := BackSlot(j);
      BackSlotBijective(j, b);
      assert WeightInflow(W, H, prev, lr, t, b) == 0.0;
      var cs := next[t].connections;
      assert cs[b := cs[b] + 0.0] == cs;
    }
  }

  /** One tick performed as the invocations perform it: every cell's
      intrinsic step and connection copy, then, source cell by source cell
      and direction by direction, the `+=` writes into in-grid neighbours.
      The result is the reference tick. */
  method Tick(W: Side, H: Side, prev: seq<Neuron>, lr: real) returns (next: seq<Neuron>)
    requires |prev| == W * H
    ensures next == ReferenceTick(W, H, prev, lr)
  {
    next := seq(W * H, c requires 0 <= c < W * H => UpdateNeuron(prev[c]));
    forall t | 0 <= t < W * H
      ensures next[t] == PartialCell(W, H, prev, lr, t, Cursor(0, 0))
    {
      PushStartsIntrinsic(W, H, prev, lr, t);
    }
    var s := 0;
    while s < W * H
      invariant s <= W * H && |next| == W * H
      invariant forall t :: 0 <= t < W * H ==> next[t] == PartialCell(W, H, prev, lr, t, Cursor(s, 0))
    {
      var j := 0;
      while j < 8
        invariant j <= 8 && |next| == W * H
        invariant forall t :: 0 <= t < W * H ==> next[t] == PartialCell(W, H, prev, lr, t, Cursor(s, j))
      {
        PushAdvances(W, H, prev, lr, next, s, j);
        next := Push(W, H, prev, lr, next, s, j);
        j := j + 1;
      }
      forall t | 0 <= t < W * H
        ensures next[t] == PartialCell(W, H, prev, lr, t, Cursor(s + 1, 0))
      {
        PushRowEnd(W, H, prev, lr, t, s);
      }
      s := s + 1;
    }
    forall t | 0 <= t < W * H
      ensures next[t] == ReferenceTick(W, H, prev, lr)[t]
    {
      PushComplete(W, H, prev, lr, t);
    }
  }
}
